=== FILE: README.md ===
# Watermark service: cache-aside core in Dafny

A Dafny model of the caching and orchestration core of a small Go
image-watermarking service, with proofs about it. The service gets an
original image from object storage, draws a watermark on it and caches
the result. The model covers:

- `ImageService.ProcessImage`: the cache-aside flow. It derives the cache key
  and looks it up. On a miss it fetches the original, watermarks it and
  schedules a cache write in the background.
- `LocalCache`: the filesystem cache with a TTL, keyed by the hex SHA-1 of the
  cache key plus `.jpg`. Stale files are removed lazily, on read.
- `CacheClient`: the Redis client: get, set with a TTL, delete, and
  scan-then-bulk-delete by pattern.
- The processor's control logic: format sniffing from the first bytes,
  routing to decoders and encoders, and batch aggregation where the first
  error wins.
- Configuration loading from the environment: defaults, integer parsing as
  `strconv.Atoi` does it, the Redis URL path and the required bucket.

Modules, one per source file or concept:

| module | file | models |
|---|---|---|
| `Base` | base.dfy | bytes, `Option`, Go errors with `%w` wrapping, the `([]byte, error)` lookup reply |
| `HexFormat` | hex.dfy | the `%x` rendering of a digest, with its inverse |
| `LocalCache` | local_cache.dfy | internal/storage/local_cache.go |
| `CacheClient` | cache_client.dfy | internal/storage/cache.go |
| `Watermark` | watermark.dfy | internal/processor/watermark.go |
| `Decimal` | decimal.dfy | `strconv.Atoi` (and `strconv.Itoa` as its partner) |
| `Config` | config.dfy | internal/config/config.go |
| `ImageService` | image_service.dfy | internal/service/image_service.go |
| `CacheAside` | cache_aside.dfy | the orchestrator wired to each cache backend |

Conventions:

- Everything is a value. The filesystem is a map from path to contents and
  modification time. The Redis server is a map from key to value and TTL.
  Each operation returns its result together with the new state.
- Times and TTLs are Go `time.Duration` nanoseconds, and `now` is an explicit
  parameter.
- Failures outside the model's control are inputs: a stat, remove, write
  or mkdir error, or a Redis transport error, each an `Option<Error>` given
  to the operation. `LocalCache.ReadFile` is the model's reading of
  `os.ReadFile`, assumed rather than proved: a failed open returns nil bytes
  and the error; a read that fails after `got` bytes returns those bytes (a
  non-nil slice) together with the error.
- A missing cache directory is part of the filesystem state, not a fault: a
  write into it fails.
- The other collaborators are function-typed parameters: the cache, the
  storage and the watermarker seen by `ProcessImage`; SHA-1; the Redis glob
  matcher; the image codecs; `redis.ParseURL`; `time.ParseDuration`; and
  `strconv.ParseFloat`.
- Go's nil versus non-nil slice is `None` versus `Some`. A non-nil empty
  slice is `Some([])`.
- `ProcessImage` also returns the collaborator calls it made, in order. The
  Prometheus counters and the scheduled background writes are ordinary
  fields of the state it returns. They are observations: the service never
  reads them to decide anything.
- A Redis `SCAN ... MATCH` iteration is taken to return exactly the stored
  keys the glob matches, each once (`CacheClient.MatchingKeys`). Real `SCAN`
  only promises that a key present for the whole iteration comes back at
  least once: a key may come back more than once, for instance when the
  table is rehashed between cursor calls.
- The orchestrator's cache is any `Get`/`Set` pair. `CacheAside` plugs in the
  filesystem cache and `CacheClient`. In the code the orchestrator's Redis
  cache is `RedisCache` (internal/storage/redis_cache.go), whose `Get` maps
  absence and errors to the same replies as `CacheClient.Get` (only the error
  text differs). `CacheClient.Set` takes the TTL as an argument, so
  `CacheAside` passes it explicitly.
- A failed Redis write command (`SET`, `DEL`) is a `CacheClient.Fault`: the
  error go-redis returns and whether the server had already applied the
  command. An error raised after the command was sent (a read timeout, a
  cancelled context) says nothing about the server's state, so both
  outcomes are modelled. A failed `GET` or `SCAN` changes nothing.

Notes on the code as written:

- The cache key is `imageKey + "-" + watermarkText`. It is not a namespaced
  key with fixed-precision parameters. It is not injective either: see
  `ImageService.CacheKeyNotInjective`.
- Provider names (`STORAGE_PROVIDER`, `CACHE_PROVIDER`) are not validated at
  load time.
- A fresh cache file whose read fails part-way is served as a hit: the
  bytes read so far (possibly none, as with a directory at the file's path)
  are returned as the image and counted as a hit. See
  `CacheAside.LocalPartialReadIsHit`.
- The service has no invalidation or batch-warmup operation. Pattern deletion
  exists only on the Redis client, and `ProcessBatch` exists only in the
  processor.
- `DeleteByPattern` returns the number of keys the scan collected, not the
  number the delete reported. With an exact scan the two agree.

## Model

| member | source | states |
|---|---|---|
| `HexFormat.Encode` | internal/storage/local_cache.go:37 | the `%x` text of n bytes is 2n characters, all lowercase hex digits |
| `HexFormat.DecodeEncode` | internal/storage/local_cache.go:37 | decoding the hex text of any bytes gives back exactly those bytes |
| `HexFormat.EncodeDecode` | internal/storage/local_cache.go:37 | any text the decoder accepts is exactly the hex rendering of what it decodes to |
| `HexFormat.EncodeInjective` | internal/storage/local_cache.go:36-37 | two byte strings have the same hex text iff they are equal |
| `LocalCache.New` | internal/storage/local_cache.go:21-32 | the constructor creates the directory and keeps the given path and TTL; a mkdir failure is wrapped with the path and creates nothing |
| `LocalCache.NewIdempotent` | internal/storage/local_cache.go:24 | creating the cache directory a second time changes nothing |
| `LocalCache.NewEnablesSet` | internal/storage/local_cache.go:23-32 | a cache that the constructor returned can be written to at once, because its directory now exists |
| `LocalCache.FilePath` | internal/storage/local_cache.go:35-38 | the path is the directory prefix, then 40 lowercase hex digits that decode to the key's SHA-1 digest, then ".jpg" |
| `LocalCache.FilePathSameIffSameDigest` | internal/storage/local_cache.go:35-38 | two keys map to the same file iff their SHA-1 digests are equal |
| `LocalCache.Get` | internal/storage/local_cache.go:41-63 | stat error: `(nil, err)`; absent file: `(nil, nil)` with nothing changed; age strictly above the TTL: `(nil, nil)` and only that file removed (kept if removal fails); age at most the TTL: what `os.ReadFile` returns, nothing changed; any bytes returned are a prefix of a fresh file at the key's path, all of it unless an error comes with them; no other file is ever touched |
| `LocalCache.Set` | internal/storage/local_cache.go:66-74 | writes the data stamped `now` at the key's path and touches no other file; it succeeds iff the write is not faulted and the cache directory exists, and a failure is returned and changes nothing |
| `LocalCache.SetThenGet` | internal/storage/local_cache.go:41-74 | in an existing cache directory, what `Set` wrote at t, `Get` returns at any time in [t, t+ttl], boundary included |
| `LocalCache.SetThenGetExpired` | internal/storage/local_cache.go:52-58 | after t+ttl the entry reads as a miss and its file is gone |
| `LocalCache.LastWriteWins` | internal/storage/local_cache.go:41-74 | after two writes to one key, `Get` returns the second |
| `LocalCache.SetOtherKeyInvisible` | internal/storage/local_cache.go:35-74 | writing a key with a different digest does not change another key's lookup, and the write and that lookup commute on the filesystem |
| `LocalCache.ExpiredReplyIgnoresRemoval` | internal/storage/local_cache.go:52-58 | a stale read gives the same `(nil, nil)` whether or not removing the file fails |
| `CacheClient.Get` | internal/storage/cache.go:25-34 | absent key: `(nil, nil)`; transport error: wrapped as "redis get error"; otherwise the stored value; never bytes and an error together |
| `CacheClient.Set` | internal/storage/cache.go:36-42 | stores the value under the key with the caller's TTL and leaves other keys alone; succeeds iff no fault, a failure is wrapped as "redis set error", and the value is stored exactly when the server applied the command (always on success, possibly despite a timed-out reply) |
| `CacheClient.Delete` | internal/storage/cache.go:44-46 | removes just that key and leaves the others alone; succeeds iff no fault, an error is passed through unwrapped, and the key is gone exactly when the server applied the command (always on success, possibly despite a timed-out reply) |
| `CacheClient.SetThenGet` | internal/storage/cache.go:25-42 | a value just set is what `Get` returns |
| `CacheClient.DeleteThenGet` | internal/storage/cache.go:25-46 | a key just deleted reads as a miss |
| `CacheClient.Scan` | internal/storage/cache.go:50-54 | the scan loop collects exactly the matching keys, each once, so the count equals the number of matches |
| `CacheClient.DeleteByPattern` | internal/storage/cache.go:48-67 | the scan-then-bulk-delete method computes exactly the declarative `PatternDelete`: scan failure gives `(0, err)` and deletes nothing; no match gives `(0, nil)` with no delete; a delete failure gives `(0, err)` and the matches are gone iff the server applied that delete; otherwise every match is removed |
| `CacheClient.PatternDeleteScope` | internal/storage/cache.go:48-67 | no outcome adds or alters an entry; a success removes every matching key, keeps every other key, and counts exactly the matches; an error counts 0 and leaves the store either unchanged or without exactly the matches, the latter only when the bulk delete failed after the server applied it; an empty match changes nothing |
| `CacheClient.PatternDeleteIdempotent` | internal/storage/cache.go:48-67 | after a successful delete, repeating it with the same pattern reports 0 and changes nothing |
| `Watermark.DetectImageFormat` | internal/processor/watermark.go:118-135 | total; the answer is only "jpeg" or "png", and it is "png" iff there are at least 4 bytes starting 89 50 4E 47 |
| `Watermark.DetectUsesFourBytes` | internal/processor/watermark.go:118-135 | inputs agreeing on their first four bytes get the same answer |
| `Watermark.DetectShortIsJpeg` | internal/processor/watermark.go:119-121 | anything shorter than 4 bytes, FF D8 FF included, is "jpeg" |
| `Watermark.AddWatermark` | internal/processor/watermark.go:55-115 | PNG input is decoded and re-encoded as PNG; any other input is decoded as JPEG and encoded as JPEG at `opts.Quality`; when decoding and drawing succeed the result is the encoder's bytes, or its error labelled "failed to encode png/jpeg"; a decoder failure is returned with its format's label and a draw failure as "failed to draw text" |
| `Watermark.GenericDecoderUnused` | internal/processor/watermark.go:74-81 | the generic-decode fallback is unreachable: swapping that decoder changes no result |
| `Watermark.AddWatermarkSucceedsIff` | internal/processor/watermark.go:63-110 | watermarking succeeds iff the sniffed format's decoder, the drawing and that format's encoder all succeed |
| `Watermark.ProcessBatch` | internal/processor/watermark.go:160-188 | a length mismatch is an error; otherwise it succeeds iff every item does, with results[i] the watermark of item i, or it returns the lowest failing index's error |
| `Decimal.Atoi` | internal/config/config.go:145 | accepts a text iff it is one or more ASCII digits after an optional single sign and its value is within int64 range, and then returns that signed value |
| `Decimal.AtoiFormat` | internal/config/config.go:145 | every int64 reads back from its decimal text; the text of an out-of-range integer is rejected |
| `Decimal.AtoiRejects` | internal/config/config.go:145-147 | the empty string, a lone sign, trailing junk and leading blanks are rejected |
| `Config.GetEnv` | internal/config/config.go:136-141 | a set variable's value is returned even when empty; the fallback is used only when it is unset |
| `Config.GetEnvEmptyIsSet` | internal/config/config.go:136-141 | a variable set to "" reads as "", an unset one as the fallback |
| `Config.GetEnvAsInt` | internal/config/config.go:143-150 | the parsed value when the variable is set and is an integer; otherwise the fallback |
| `Config.GetEnvAsIntReadsFormatted` | internal/config/config.go:143-150 | a variable holding the decimal text of an int64 reads back as that number |
| `Config.LoadRedisConfig` | internal/config/config.go:113-132 | a non-empty `REDIS_URL` decides alone, and a parse failure is wrapped; an empty or unset one falls back to `REDIS_ADDR` ("localhost:6379"), `REDIS_PASSWORD` ("") and `REDIS_DB` (0) |
| `Config.LoadRedisConfigEmptyUrlIsUnset` | internal/config/config.go:114-115 | an empty `REDIS_URL` gives the same configuration as an unset one, unlike `getEnv`'s treatment of empty values |
| `Config.Load` | internal/config/config.go:66-111 | a Redis URL failure is reported first; otherwise it fails iff `S3_BUCKET` is unset or empty; on success unset variables take the defaults config.go gives them, and provider names are passed through unvalidated |
| `Config.LoadOnlyBucket` | internal/config/config.go:66-111 | an environment holding only a bucket yields exactly the default configuration |
| `Config.LoadWithoutBucketFails` | internal/config/config.go:106-108 | loading never succeeds without a non-empty bucket |
| `ImageService.CacheKey` | internal/service/image_service.go:57 | the key is the image key, one dash, then the watermark text |
| `ImageService.CacheKeyNotInjective` | internal/service/image_service.go:57 | ("a-b", "c") and ("a", "b-c") share a key |
| `ImageService.CacheKeyInjectiveWithoutDash` | internal/service/image_service.go:57 | when neither image key has a dash, equal keys mean equal requests |
| `ImageService.ProcessImage` | internal/service/image_service.go:56-96 | non-nil cached bytes are returned as they are, even with an error, with no other call and nothing scheduled; nil bytes are a miss that queries storage with the image key; a storage error is wrapped, with no watermarking and no write; a watermark error is wrapped, with no write and no duration observed; a success returns the watermarked bytes and schedules exactly one write of them under the cache key; each call counts exactly one hit or one miss |
| `ImageService.Flush` | internal/service/image_service.go:88-93 | background writes only log their failures: every failed write's error is logged, every logged error is some failed write's, the log is no longer than the list of writes, and it is empty when every write succeeds (one entry per failure, in order, is `ImageService.FlushLogsFailedWrites`) |
| `ImageService.FlushLogsFailedWrites` | internal/service/image_service.go:88-93 | the log is exactly the failing writes' errors, one each, in the order the writes ran |
| `ImageService.CacheSetOutcomeIrrelevant` | internal/service/image_service.go:88-95 | how the cache write fares changes nothing `ProcessImage` returns or does |
| `ImageService.CountersTrackCalls` | internal/service/image_service.go:65-73 | over any sequence of requests, hits plus misses grow by exactly the number of requests, and neither counter decreases |
| `CacheAside.LocalHitWithinTtl` | internal/service/image_service.go:59-69 | once the write a successful request scheduled lands in the filesystem cache at t1, the same request at any time up to t1+ttl returns identical bytes, calls only the cache, and schedules nothing |
| `CacheAside.LocalMissAfterTtl` | internal/storage/local_cache.go:52-58 | once the TTL has strictly passed since the request's entry was written, the same request misses and goes back to storage |
| `CacheAside.LocalPartialReadIsHit` | internal/service/image_service.go:60-69 | a fresh cache file whose read fails after some bytes is served as a hit with those bytes, calling nothing else and counting a hit |
| `CacheAside.RedisHitAfterWrite` | internal/service/image_service.go:88-95 | once the scheduled write lands in Redis, the same request is a hit with identical bytes |
| `CacheAside.RedisMissAfterPatternDelete` | internal/storage/cache.go:48-67 | after a pattern delete that matches a request's key and whose bulk delete the server applied (on success, or despite a lost reply), that request misses and queries storage |

## Left out

- Logging (logrus), the Prometheus registry and the histogram's observed values. Only the counts of hits, misses and observations are kept.
- Concurrency. The background cache write is recorded as a pending write, and `Flush` runs such writes later in order. `ProcessBatch` runs its items one after another, which is safe because each goroutine writes only its own index. Races, context cancellation and Redis `SCAN` behaviour under concurrent writes are not modelled.
- Image decoding, drawing and encoding (jpeg, png, freetype, fonts), `NewWatermarkProcessor` (it reads a font file) and the `sync.Pool` buffer: these are foreign or float-based. The codecs are a parameter.
- SHA-1, the Redis glob, `redis.ParseURL`, `time.ParseDuration` and `strconv.ParseFloat` are opaque parameters. `strconv.Atoi` is modelled concretely for a 64-bit `int`.
- Server-side expiry of Redis entries. The TTL is recorded with each entry, but entries never vanish by themselves.
- `CacheClient.Ping`, `Close` and the `NewRedisClient` constructor: they only pass options to the go-redis client.
- The HTTP handler and `main.go`, which are transport glue. Also the S3 wrapper, which prepends the key prefix and whose `HeadObject` turns every error into `(false, nil)`; `redis_cache.go` (same miss-versus-error mapping as `CacheClient.Get`) and `interfaces.go` (declarations only).
- The filesystem cache has no pattern delete, and none is modelled.
- `LocalCache.FilePath`: `filepath.Join` is modelled as a plain join. The lexical cleaning of the directory (such as `./cache` becoming `cache`) is not modelled.
- `CacheClient.DeleteByPattern`: duplicate `SCAN` results are not modelled. In the code a key returned twice is counted twice (cache.go:66 returns `len(keys)`), so the reported count can exceed the number of keys deleted; the model's count is the number of distinct matches.
- `LocalCache.Get`: a stat failure other than "does not exist" is an input and takes precedence over the file's existence. Which prefix a failed read returns is an input (`got`); the file is not re-read.
- `LocalCache.Get`: `time.Since` is `now - mtime` on unbounded integers. The int64 overflow of that subtraction is not modelled.
- `LocalCache.Set`: a failed write leaves the filesystem unchanged. A real `os.WriteFile` can leave the file truncated or partly written.
- Source defects are modelled by their evident intent:
  - the struct declaration garbled into a comment (internal/service/image_service.go:33);
  - `tl:` instead of `ttl:` (internal/storage/local_cache.go:29): the cache keeps the TTL it was given;
  - `AddWatermark` called with the watermark text instead of `WatermarkOptions` (internal/service/image_service.go:82): the orchestrator's watermarker takes the text;
  - the handler passing a `ProcessRequest` (internal/handler/image_handler.go:46).

=== FILE: base.dfy ===
/**
  Shared vocabulary of the watermark service model: bytes, optional values,
  Go-style errors (with `%w` wrapping) and the reply shape of a cache lookup.
 */
module Base {

  /** One octet, as in Go's `byte`. */
  newtype byte = x: int | 0 <= x < 256

  /** A Go `[]byte`; the nil-versus-non-nil distinction is carried by `Option` where it matters. */
  type Bytes = seq<byte>

  datatype Option<+T> = None | Some(value: T)

  /**
    A Go `error`. `Wrapped(context, cause)` is what `fmt.Errorf("<context>: %w", cause)`
    produces: the cause stays reachable, as with `errors.Unwrap`.
   */
  datatype Error = Error(msg: string) | Wrapped(context: string, cause: Error)

  /** The `(T, error)` pair of a Go call that either yields a value or fails. */
  datatype Result<+T> = Success(value: T) | Failure(error: Error) {
    predicate IsFailure() { Failure? }

    function PropagateFailure<U>(): Result<U>
      requires Failure?
    {
      Failure(error)
    }

    function Extract(): T
      requires Success?
    {
      value
    }
  }

  /**
    The `([]byte, error)` pair returned by a cache `Get`. Both halves are kept
    independent because the caller inspects them independently: a nil slice is
    `data == None`, a non-nil (possibly empty) slice is `Some`.
   */
  datatype Lookup = Lookup(data: Option<Bytes>, err: Option<Error>)

  /** A genuine miss: nil bytes and a nil error. */
  const Miss: Lookup := Lookup(None, None)
}

=== FILE: cache_aside.dfy ===
/**
  The orchestrator wired to the two cache backends: a write scheduled by one
  `ProcessImage` call, once it has landed, serves the next identical call;
  expiry and pattern deletion send the next call back to storage.
 */
module CacheAside {
  import opened Base
  import LocalCache
  import CacheClient
  import opened ImageService

  /**
    The orchestrator's cache answers every key as the filesystem cache does at
    time `now`. Stated as a predicate over the collaborators rather than by
    building a closure over `LocalCache.Get`, which keeps the proofs below
    small.
   */
  ghost predicate ReadsLocal(svc: Collaborators, c: LocalCache.Cache, fs: LocalCache.FileSystem, now: int,
                             faults: LocalCache.Faults) {
    forall k :: svc.cacheGet(k) == LocalCache.Get(c, fs, now, k, faults).reply
  }

  /** The orchestrator reading through a Redis store as it stands. */
  function OverRedis(svc: Collaborators, store: CacheClient.Store): Collaborators {
    svc.(cacheGet := k => CacheClient.Get(store, k, None))
  }

  /**
    With the filesystem cache: once the write a successful request scheduled
    lands at `t1`, the same request at any `t2` within the TTL (boundary
    included) returns byte-identical output, calls only the cache and
    schedules nothing.
   */
  lemma LocalHitWithinTtl(svc: Collaborators, later: Collaborators, st: State, imageKey: string, text: string,
                          c: LocalCache.Cache, fs: LocalCache.FileSystem, t1: int, t2: int)
    requires c.path in fs.dirs
    requires t1 <= t2 <= t1 + c.ttl
    requires var first := ProcessImage(svc, st, imageKey, text);
             && first.state.pending != st.pending
             && var w := first.state.pending[|first.state.pending| - 1];
                ReadsLocal(later, c, LocalCache.Set(c, fs, t1, w.key, w.data, LocalCache.NoFaults).fs, t2,
                           LocalCache.NoFaults)
    ensures var first := ProcessImage(svc, st, imageKey, text);
            var second := ProcessImage(later, first.state, imageKey, text);
            && second.result == first.result
            && second.calls == [CacheGet(CacheKey(imageKey, text))]
            && second.state.pending == first.state.pending
  {
    var first := ProcessImage(svc, st, imageKey, text);
    var w := first.state.pending[|first.state.pending| - 1];
    LocalCache.SetThenGet(c, fs, t1, t2, CacheKey(imageKey, text), w.data);
  }

  /**
    Once the TTL has strictly passed since the request's entry was written
    (whatever bytes were written), the same request misses and goes back to
    storage.
   */
  lemma LocalMissAfterTtl(svc: Collaborators, st: State, imageKey: string, text: string, data: Bytes,
                          c: LocalCache.Cache, fs: LocalCache.FileSystem, t1: int, t2: int)
    requires c.path in fs.dirs
    requires t2 > t1 + c.ttl
    requires ReadsLocal(svc, c, LocalCache.Set(c, fs, t1, CacheKey(imageKey, text), data, LocalCache.NoFaults).fs, t2,
                        LocalCache.NoFaults)
    ensures var out := ProcessImage(svc, st, imageKey, text);
            && |out.calls| >= 2 && out.calls[1] == StorageGet(imageKey)
            && out.state.metrics.misses == st.metrics.misses + 1
  {
    LocalCache.SetThenGetExpired(c, fs, t1, t2, CacheKey(imageKey, text), data);
  }

  /**
    A read of a fresh cache file that fails part-way is served as a hit: the
    bytes read before the failure are returned as the image, the error is only
    logged, a hit is counted and neither storage nor the watermarker is asked.
    A failure on the first read (for instance a directory at the file's path)
    serves an empty image.
   */
  lemma LocalPartialReadIsHit(svc: Collaborators, st: State, imageKey: string, text: string,
                              c: LocalCache.Cache, fs: LocalCache.FileSystem, now: int,
                              faults: LocalCache.Faults, e: Error, got: nat)
    requires ReadsLocal(svc, c, fs, now, faults)
    requires faults.stat.None? && faults.read == Some(LocalCache.ReadFailed(e, got))
    requires var p := LocalCache.FilePath(c, CacheKey(imageKey, text));
             p in fs.files && !LocalCache.Expired(c, fs.files[p].mtime, now)
    ensures var data := fs.files[LocalCache.FilePath(c, CacheKey(imageKey, text))].data;
            var out := ProcessImage(svc, st, imageKey, text);
            && out.result.Success?
            && out.result.value <= data
            && |out.result.value| == (if got < |data| then got else |data|)
            && out.calls == [CacheGet(CacheKey(imageKey, text))]
            && out.state.metrics.hits == st.metrics.hits + 1
            && out.state.pending == st.pending
  {
  }

  /** With Redis: once the scheduled write lands, the same request is a hit with the same bytes. */
  lemma RedisHitAfterWrite(svc: Collaborators, st: State, imageKey: string, text: string,
                           store: CacheClient.Store, ttl: int)
    ensures var first := ProcessImage(svc, st, imageKey, text);
            first.state.pending != st.pending ==>
              var w := first.state.pending[|first.state.pending| - 1];
              var store' := CacheClient.Set(store, w.key, w.data, ttl, None).store;
              var second := ProcessImage(OverRedis(svc, store'), first.state, imageKey, text);
              second.result == first.result && second.calls == [CacheGet(CacheKey(imageKey, text))]
  {
    var first := ProcessImage(svc, st, imageKey, text);
    if first.state.pending != st.pending {
      var w := first.state.pending[|first.state.pending| - 1];
      CacheClient.SetThenGet(store, w.key, w.data, ttl);
    }
  }

  /**
    Invalidation: after a pattern delete whose pattern matches a request's key
    and whose bulk delete the server carried out (it succeeded, or its reply
    was lost after the fact), that request misses and goes back to storage.
   */
  lemma RedisMissAfterPatternDelete(svc: Collaborators, st: State, imageKey: string, text: string,
                                    store: CacheClient.Store, pattern: string,
                                    matches: (string, string) -> bool, delFault: Option<CacheClient.Fault>)
    requires matches(pattern, CacheKey(imageKey, text))
    ensures var purge := CacheClient.PatternDelete(store, pattern, matches, None, delFault);
            CacheClient.Applied(delFault) ==>
              var again := ProcessImage(OverRedis(svc, purge.store), st, imageKey, text);
              |again.calls| >= 2 && again.calls[1] == StorageGet(imageKey)
              && again.state.metrics.misses == st.metrics.misses + 1
  {
    var key := CacheKey(imageKey, text);
    assert key in store ==> key in CacheClient.MatchingKeys(store, pattern, matches);
  }
}

=== FILE: cache_client.dfy ===
/**
  The Redis key-value client (`CacheClient` in internal/storage/cache.go).

  The server is a map from key to value-and-TTL; expiry is the server's own
  business and is not modelled. Each command's transport failure is an input;
  for a command that writes, the failure also says whether the server had
  already carried the command out (a reply lost to a read timeout or a
  cancelled context reaches the client as an error all the same).
  The server-side glob is an arbitrary predicate `matches(pattern, key)`, and
  `SCAN` enumerates exactly the matching keys, each once.
 */
module CacheClient {
  import opened Base

  /** A stored value together with the TTL (nanoseconds) it was written with. */
  datatype Entry = Entry(value: Bytes, ttl: int)

  type Store = map<string, Entry>

  /**
    A failed write command as the client sees it: the error go-redis returns,
    and whether the server applied the command before that error arose.
   */
  datatype Fault = Fault(error: Error, applied: bool)

  /** Whether the server carried out a write command that met `fault`. */
  predicate Applied(fault: Option<Fault>) {
    fault.None? || fault.value.applied
  }

  datatype Written = Written(err: Option<Error>, store: Store)

  /** The `(int, error)` of `DeleteByPattern` together with the store afterwards. */
  datatype Purge = Purge(count: int, err: Option<Error>, store: Store)

  /** `Get`: `redis.Nil` is a miss with no error; any other failure is wrapped. */
  function Get(store: Store, key: string, fault: Option<Error>): (r: Lookup)
    ensures r.data.None? || r.err.None?
    ensures fault.Some? ==> r == Lookup(None, Some(Wrapped("redis get error", fault.value)))
    ensures fault.None? ==> r.err.None? && (r.data.Some? <==> key in store)
    ensures r.data.Some? ==> key in store && r.data.value == store[key].value
  {
    match fault
    case Some(e) => Lookup(None, Some(Wrapped("redis get error", e)))
    case None => if key in store then Lookup(Some(store[key].value), None) else Miss
  }

  /**
    `Set`: store the value under the key with the caller's TTL. A failure is
    wrapped; whether the value was stored anyway is part of the fault.
   */
  function Set(store: Store, key: string, value: Bytes, ttl: int, fault: Option<Fault>): (r: Written)
    ensures r.err.None? <==> fault.None?
    ensures fault.Some? ==> r.err == Some(Wrapped("redis set error", fault.value.error))
    ensures Applied(fault) ==> key in r.store && r.store[key] == Entry(value, ttl)
    ensures !Applied(fault) ==> r.store == store
    ensures r.store - {key} == store - {key}
  {
    var store' := if Applied(fault) then store[key := Entry(value, ttl)] else store;
    match fault
    case Some(f) => Written(Some(Wrapped("redis set error", f.error)), store')
    case None => Written(None, store')
  }

  /**
    `Delete`: remove just that key (an absent key is not an error). The error
    is passed through unwrapped; whether the key was removed anyway is part of
    the fault.
   */
  function Delete(store: Store, key: string, fault: Option<Fault>): (r: Written)
    ensures r.err.None? <==> fault.None?
    ensures fault.Some? ==> r.err == Some(fault.value.error)
    ensures Applied(fault) ==> key !in r.store
    ensures !Applied(fault) ==> r.store == store
    ensures r.store - {key} == store - {key}
  {
    var store' := if Applied(fault) then store - {key} else store;
    match fault
    case Some(f) => Written(Some(f.error), store')
    case None => Written(None, store')
  }

  lemma SetThenGet(store: Store, key: string, value: Bytes, ttl: int)
    ensures Get(Set(store, key, value, ttl, None).store, key, None) == Lookup(Some(value), None)
  {
  }

  lemma DeleteThenGet(store: Store, key: string)
    ensures Get(Delete(store, key, None).store, key, None) == Miss
  {
  }

  /**
    The keys a `SCAN ... MATCH pattern` iteration returns, taken to be exactly
    the stored keys the glob matches (no key missed, none repeated).
   */
  function MatchingKeys(store: Store, pattern: string, matches: (string, string) -> bool): set<string> {
    set k | k in store && matches(pattern, k)
  }

  /**
    Declarative reference for `DeleteByPattern`: a scan failure deletes nothing,
    no match issues no delete, otherwise all matches go in one command. A
    failure of that command reports a zero count, and the matches are gone
    exactly when the server applied it.
   */
  function PatternDelete(store: Store, pattern: string, matches: (string, string) -> bool,
                         scanFault: Option<Error>, delFault: Option<Fault>): Purge
  {
    var ks := MatchingKeys(store, pattern, matches);
    if scanFault.Some? then Purge(0, Some(Wrapped("failed to scan cache keys", scanFault.value)), store)
    else if ks == {} then Purge(0, None, store)
    else if delFault.Some? then
      Purge(0, Some(Wrapped("failed to delete cache keys", delFault.value.error)),
            if delFault.value.applied then store - ks else store)
    else Purge(|ks|, None, store - ks)
  }

  /**
    The `SCAN` iteration: visit every key of the store once and collect the
    matching ones, each exactly once.
   */
  method Scan(store: Store, pattern: string, matches: (string, string) -> bool) returns (keys: seq<string>)
    ensures forall k :: k in keys <==> k in MatchingKeys(store, pattern, matches)
    ensures |keys| == |MatchingKeys(store, pattern, matches)|
  {
    keys := [];
    ghost var collected: set<string> := {};
    var unvisited := store.Keys;
    while unvisited != {}
      invariant unvisited <= store.Keys
      invariant collected == MatchingKeys(store, pattern, matches) - unvisited
      invariant forall k :: k in keys <==> k in collected
      invariant |keys| == |collected|
      decreases unvisited
    {
      var k :| k in unvisited;
      if matches(pattern, k) {
        keys := keys + [k];
        collected := collected + {k};
      }
      unvisited := unvisited - {k};
    }
  }

  /** `DeleteByPattern`: scan, then one bulk delete of everything collected. */
  method DeleteByPattern(store: Store, pattern: string, matches: (string, string) -> bool,
                         scanFault: Option<Error>, delFault: Option<Fault>)
    returns (count: int, err: Option<Error>, store': Store)
    ensures Purge(count, err, store') == PatternDelete(store, pattern, matches, scanFault, delFault)
  {
    var keys := Scan(store, pattern, matches);
    if scanFault.Some? {
      return 0, Some(Wrapped("failed to scan cache keys", scanFault.value)), store;
    }
    store' := store;
    if |keys| > 0 {
      if Applied(delFault) {
        store' := store - set k | k in keys;
      }
      if delFault.Some? {
        assert (set k | k in keys) == MatchingKeys(store, pattern, matches);
        return 0, Some(Wrapped("failed to delete cache keys", delFault.value.error)), store';
      }
    }
    assert (set k | k in keys) == MatchingKeys(store, pattern, matches);
    count, err := |keys|, None;
  }

  /**
    Scope of a pattern delete: every outcome keeps each surviving key with its
    entry; a success removes every matching key, keeps every other key, and
    counts exactly the matches; an error counts 0 and either changes nothing
    or, only when the bulk delete failed after the server applied it, removes
    exactly the matches; an empty match changes nothing.
   */
  lemma PatternDeleteScope(store: Store, pattern: string, matches: (string, string) -> bool,
                           scanFault: Option<Error>, delFault: Option<Fault>)
    ensures var r := PatternDelete(store, pattern, matches, scanFault, delFault);
            && (forall k :: k in r.store ==> k in store && r.store[k] == store[k])
            && (r.err.None? ==>
                  && r.count == |MatchingKeys(store, pattern, matches)|
                  && (forall k :: k in r.store <==> k in store && !matches(pattern, k)))
            && (r.err.Some? ==>
                  && r.count == 0
                  && (r.store == store || r.store == store - MatchingKeys(store, pattern, matches)))
            && (r.err.Some? && r.store != store ==> scanFault.None? && delFault.Some? && delFault.value.applied)
            && (MatchingKeys(store, pattern, matches) == {} ==> r.count == 0 && r.store == store)
  {
    var ks := MatchingKeys(store, pattern, matches);
    forall k | k in store
      ensures k in ks <==> matches(pattern, k)
    {
    }
  }

  /** A successful delete leaves nothing for the same pattern, so repeating it reports zero. */
  lemma PatternDeleteIdempotent(store: Store, pattern: string, matches: (string, string) -> bool,
                                delFault: Option<Fault>, scanFault2: Option<Error>, delFault2: Option<Fault>)
    ensures var first := PatternDelete(store, pattern, matches, None, delFault);
            first.err.None? ==>
              var second := PatternDelete(first.store, pattern, matches, scanFault2, delFault2);
              second.count == 0 && second.store == first.store
  {
    var first := PatternDelete(store, pattern, matches, None, delFault);
    if first.err.None? {
      assert MatchingKeys(first.store, pattern, matches) == {};
    }
  }
}

=== FILE: config.dfy ===
/**
  Configuration loading (internal/config/config.go) as pure functions of the
  process environment, a map from variable name to value. Parsers the model
  does not define (Redis URLs, Go durations, floats) are the `Parsers` parameter;
  integers are read with `Decimal.Atoi`. Durations are nanoseconds.
 */
module Config {
  import opened Base
  import Decimal

  type Env = map<string, string>

  datatype RedisConfig = RedisConfig(addr: string, password: string, db: int)

  datatype S3Config = S3Config(
    endpoint: string,
    region: string,
    bucket: string,
    prefix: string,
    accessKeyId: string,
    secretAccessKey: string)

  datatype StorageConfig = StorageConfig(provider: string, s3: S3Config)

  datatype LocalCacheConfig = LocalCacheConfig(path: string)

  datatype CacheConfig = CacheConfig(provider: string, redis: RedisConfig, local: LocalCacheConfig)

  datatype Config = Config(
    serverPort: int,
    serverReadTimeout: int,
    serverWriteTimeout: int,
    serverIdleTimeout: int,
    storage: StorageConfig,
    cache: CacheConfig,
    cacheTtl: int,
    fontPath: string,
    fontSize: real,
    watermarkColor: string,
    imageQuality: int,
    logLevel: string)

  /** `redis.ParseURL`, `time.ParseDuration` and `strconv.ParseFloat`, supplied from outside. */
  datatype Parsers = Parsers(
    parseRedisUrl: string -> Result<RedisConfig>,
    parseDuration: string -> Option<int>,
    parseFloat: string -> Option<real>)

  const Second: int := 1_000_000_000
  const Hour: int := 3600 * Second

  const RedisUrlParseError: string := "could not parse REDIS_URL"
  const BucketRequiredError: string := "S3_BUCKET environment variable is required"

  /** `getEnv`: a set variable wins even when its value is empty. */
  function GetEnv(env: Env, key: string, fallback: string): (v: string)
    ensures key in env ==> v == env[key]
    ensures key !in env ==> v == fallback
  {
    if key in env then env[key] else fallback
  }

  /** Unlike a missing variable, one set to the empty string reads as empty, not as the fallback. */
  lemma GetEnvEmptyIsSet(env: Env, key: string, fallback: string)
    ensures GetEnv(env[key := ""], key, fallback) == ""
    ensures GetEnv(env - {key}, key, fallback) == fallback
  {
  }

  /** `getEnvAsInt`: the parsed value if the variable is set and is an integer, else the fallback. */
  function GetEnvAsInt(env: Env, key: string, fallback: int): (v: int)
    ensures key in env && Decimal.Atoi(env[key]).Some? ==> v == Decimal.Atoi(env[key]).value
    ensures key !in env || Decimal.Atoi(env[key]).None? ==> v == fallback
  {
    if key in env then
      match Decimal.Atoi(env[key])
      case Some(i) => i
      case None => fallback
    else fallback
  }

  /** A variable holding the decimal text of an `int64` reads back as that number. */
  lemma GetEnvAsIntReadsFormatted(env: Env, key: string, n: int, fallback: int)
    requires Decimal.Int64Min <= n <= Decimal.Int64Max
    ensures GetEnvAsInt(env[key := Decimal.Format(n)], key, fallback) == n
  {
    Decimal.AtoiFormat(n);
  }

  /** `getEnvAsFloat`. */
  function GetEnvAsFloat(p: Parsers, env: Env, key: string, fallback: real): (v: real)
    ensures key in env && p.parseFloat(env[key]).Some? ==> v == p.parseFloat(env[key]).value
    ensures key !in env || p.parseFloat(env[key]).None? ==> v == fallback
  {
    if key in env && p.parseFloat(env[key]).Some? then p.parseFloat(env[key]).value else fallback
  }

  /** `getEnvAsDuration`. */
  function GetEnvAsDuration(p: Parsers, env: Env, key: string, fallback: int): (v: int)
    ensures key in env && p.parseDuration(env[key]).Some? ==> v == p.parseDuration(env[key]).value
    ensures key !in env || p.parseDuration(env[key]).None? ==> v == fallback
  {
    if key in env && p.parseDuration(env[key]).Some? then p.parseDuration(env[key]).value else fallback
  }

  /**
    `loadRedisConfig`. `os.Getenv` cannot tell unset from empty, so an empty
    `REDIS_URL` falls through to the individual variables.
   */
  function LoadRedisConfig(p: Parsers, env: Env): (r: Result<RedisConfig>)
    ensures "REDIS_URL" in env && env["REDIS_URL"] != "" ==>
              match p.parseRedisUrl(env["REDIS_URL"])
              case Success(rc) => r == Success(rc)
              case Failure(e) => r == Failure(Wrapped(RedisUrlParseError, e))
    ensures "REDIS_URL" !in env || env["REDIS_URL"] == "" ==>
              && r.Success?
              && r.value.addr == (if "REDIS_ADDR" in env then env["REDIS_ADDR"] else "localhost:6379")
              && r.value.password == (if "REDIS_PASSWORD" in env then env["REDIS_PASSWORD"] else "")
              && r.value.db == GetEnvAsInt(env, "REDIS_DB", 0)
              && ("REDIS_DB" !in env ==> r.value.db == 0)
  {
    var url := if "REDIS_URL" in env then env["REDIS_URL"] else "";
    if url != "" then
      match p.parseRedisUrl(url)
      case Failure(e) => Failure(Wrapped(RedisUrlParseError, e))
      case Success(rc) => Success(RedisConfig(rc.addr, rc.password, rc.db))
    else
      Success(RedisConfig(
        GetEnv(env, "REDIS_ADDR", "localhost:6379"),
        GetEnv(env, "REDIS_PASSWORD", ""),
        GetEnvAsInt(env, "REDIS_DB", 0)))
  }

  /**
    For the Redis URL, on the other hand, an empty value counts as unset: the
    configuration is then the one built from the individual variables.
   */
  lemma LoadRedisConfigEmptyUrlIsUnset(p: Parsers, env: Env)
    ensures LoadRedisConfig(p, env["REDIS_URL" := ""]) == LoadRedisConfig(p, env - {"REDIS_URL"})
  {
  }

  /** `Load`: read every setting with its default, then insist on a bucket. */
  function Load(p: Parsers, env: Env): (r: Result<Config>)
    // The Redis settings are resolved first, and their failure is the one reported.
    ensures LoadRedisConfig(p, env).Failure? ==> r == Failure(LoadRedisConfig(p, env).error)
    ensures LoadRedisConfig(p, env).Success? ==>
              (r.Failure? <==> "S3_BUCKET" !in env || env["S3_BUCKET"] == "")
    ensures r.Failure? && LoadRedisConfig(p, env).Success? ==> r.error == Error(BucketRequiredError)
    ensures r.Success? ==>
              && r.value.cache.redis == LoadRedisConfig(p, env).value
              && "S3_BUCKET" in env && env["S3_BUCKET"] != ""
              && r.value.storage.s3.bucket == env["S3_BUCKET"]
              // Defaults for unset variables; provider names are taken as given.
              && ("SERVER_PORT" !in env ==> r.value.serverPort == 8080)
              && ("IMAGE_QUALITY" !in env ==> r.value.imageQuality == 90)
              && ("STORAGE_PROVIDER" !in env ==> r.value.storage.provider == "s3")
              && ("STORAGE_PROVIDER" in env ==> r.value.storage.provider == env["STORAGE_PROVIDER"])
              && ("CACHE_PROVIDER" !in env ==> r.value.cache.provider == "redis")
              && ("CACHE_PROVIDER" in env ==> r.value.cache.provider == env["CACHE_PROVIDER"])
              && ("LOCAL_CACHE_PATH" !in env ==> r.value.cache.local.path == "./cache")
              && ("S3_PREFIX" !in env ==> r.value.storage.s3.prefix == "qc-images/")
              && ("CACHE_TTL" !in env ==> r.value.cacheTtl == 7 * 24 * Hour)
  {
    var redis :- LoadRedisConfig(p, env);
    var cfg := Config(
      GetEnvAsInt(env, "SERVER_PORT", 8080),
      GetEnvAsDuration(p, env, "SERVER_READ_TIMEOUT", 10 * Second),
      GetEnvAsDuration(p, env, "SERVER_WRITE_TIMEOUT", 30 * Second),
      GetEnvAsDuration(p, env, "SERVER_IDLE_TIMEOUT", 60 * Second),
      StorageConfig(
        GetEnv(env, "STORAGE_PROVIDER", "s3"),
        S3Config(
          GetEnv(env, "S3_ENDPOINT", ""),
          GetEnv(env, "AWS_REGION", "auto"),
          GetEnv(env, "S3_BUCKET", ""),
          GetEnv(env, "S3_PREFIX", "qc-images/"),
          GetEnv(env, "S3_ACCESS_KEY_ID", ""),
          GetEnv(env, "S3_SECRET_ACCESS_KEY", ""))),
      CacheConfig(
        GetEnv(env, "CACHE_PROVIDER", "redis"),
        redis,
        LocalCacheConfig(GetEnv(env, "LOCAL_CACHE_PATH", "./cache"))),
      GetEnvAsDuration(p, env, "CACHE_TTL", 7 * 24 * Hour),
      GetEnv(env, "FONT_PATH", "./fonts/Arial.ttf"),
      GetEnvAsFloat(p, env, "FONT_SIZE", 24.0),
      GetEnv(env, "WATERMARK_COLOR", "#FFFFFF"),
      GetEnvAsInt(env, "IMAGE_QUALITY", 90),
      GetEnv(env, "LOG_LEVEL", "info"));
    if cfg.storage.s3.bucket == "" then Failure(Error(BucketRequiredError)) else Success(cfg)
  }

  /** The configuration an environment holding only a bucket name produces. */
  function Defaults(bucket: string): Config {
    Config(
      8080, 10 * Second, 30 * Second, 60 * Second,
      StorageConfig("s3", S3Config("", "auto", bucket, "qc-images/", "", "")),
      CacheConfig("redis", RedisConfig("localhost:6379", "", 0), LocalCacheConfig("./cache")),
      7 * 24 * Hour, "./fonts/Arial.ttf", 24.0, "#FFFFFF", 90, "info")
  }

  /** With only a non-empty bucket set, every other setting takes the default config.go gives it. */
  lemma LoadOnlyBucket(p: Parsers, bucket: string)
    requires bucket != ""
    ensures Load(p, map["S3_BUCKET" := bucket]) == Success(Defaults(bucket))
  {
  }

  /** An unset or empty bucket is fatal, whatever else is configured (Redis URL errors aside). */
  lemma LoadWithoutBucketFails(p: Parsers, env: Env)
    requires "S3_BUCKET" !in env || env["S3_BUCKET"] == ""
    ensures Load(p, env).Failure?
  {
  }
}

=== FILE: decimal.dfy ===
/**
  Base-10 integers as Go's `strconv.Atoi` reads them on a 64-bit platform: an
  optional `+` or `-`, then one or more ASCII digits, and a value that fits in
  an `int64`; anything else is an error. `Format` (as `strconv.Itoa`) is the
  partner used to show that the parser reads back every `int64` it renders.
 */
module Decimal {
  import opened Base

  const Int64Min: int := -0x8000_0000_0000_0000
  const Int64Max: int := 0x7fff_ffff_ffff_ffff

  predicate IsDigit(c: char) {
    '0' <= c <= '9'
  }

  predicate AllDigits(s: string) {
    forall i :: 0 <= i < |s| ==> IsDigit(s[i])
  }

  /** The value of a run of digits, most significant first. */
  function DigitsValue(s: string): (n: nat)
    requires AllDigits(s)
  {
    if s == [] then 0
    else DigitsValue(s[..|s| - 1]) * 10 + (s[|s| - 1] as int - '0' as int)
  }

  /** The digits of a natural number, without leading zeros (a lone "0" for zero). */
  function NatDigits(n: nat): (s: string)
    ensures |s| >= 1
    ensures AllDigits(s)
    ensures n > 0 ==> s[0] != '0'
    decreases n
  {
    var last := [('0' as int + n % 10) as char];
    if n < 10 then last else NatDigits(n / 10) + last
  }

  predicate IsSign(c: char) {
    c == '+' || c == '-'
  }

  /** The syntax `strconv.Atoi` accepts: one or more digits, possibly after a single sign. */
  predicate IsDecimal(s: string) {
    || (|s| >= 1 && AllDigits(s))
    || (|s| >= 2 && IsSign(s[0]) && AllDigits(s[1..]))
  }

  /** The integer a decimal text denotes, before any range check. */
  function Denotation(s: string): int
    requires IsDecimal(s)
  {
    if s[0] == '-' then -(DigitsValue(s[1..]) as int)
    else if s[0] == '+' then DigitsValue(s[1..])
    else DigitsValue(s)
  }

  /** `strconv.Atoi`. */
  function Atoi(s: string): (r: Option<int>)
    // Accepted exactly when the text is a decimal whose value fits in an `int64`, and then that value.
    ensures r.Some? <==> IsDecimal(s) && Int64Min <= Denotation(s) <= Int64Max
    ensures r.Some? ==> r.value == Denotation(s)
    // Corollaries of the two clauses above, spelled out for callers.
    ensures r.Some? ==> Int64Min <= r.value <= Int64Max
    ensures r.Some? ==> |s| >= 1 && (IsDigit(s[0]) || IsSign(s[0]))
    ensures AllDigits(s) && |s| >= 1 && DigitsValue(s) <= Int64Max ==> r == Some(DigitsValue(s))
  {
    var signed := |s| > 0 && (s[0] == '+' || s[0] == '-');
    var digits := if signed then s[1..] else s;
    if digits == [] || !AllDigits(digits) then None
    else
      var v: int := if signed && s[0] == '-' then -(DigitsValue(digits) as int) else DigitsValue(digits);
      if Int64Min <= v <= Int64Max then Some(v) else None
  }

  /** `strconv.Itoa`: a minus sign for negatives, then the digits of the magnitude. */
  function Format(n: int): string {
    if n < 0 then "-" + NatDigits(-n) else NatDigits(n)
  }

  lemma {:induction false} DigitsValueOfNatDigits(n: nat)
    ensures DigitsValue(NatDigits(n)) == n
    decreases n
  {
    var s := NatDigits(n);
    if n >= 10 {
      DigitsValueOfNatDigits(n / 10);
      assert s[..|s| - 1] == NatDigits(n / 10);
    }
  }

  /**
    Every `int64` survives a round trip through its decimal text, and the
    rendering of any integer outside that range is rejected.
   */
  lemma AtoiFormat(n: int)
    ensures Atoi(Format(n)) == if Int64Min <= n <= Int64Max then Some(n) else None
  {
    DigitsValueOfNatDigits(if n < 0 then -n else n);
    if n < 0 {
      assert Format(n)[1..] == NatDigits(-n);
    }
  }

  /** Text that is not a signed run of digits is rejected. */
  lemma AtoiRejects()
    ensures Atoi("") == None
    ensures Atoi("-") == None
    ensures Atoi("+") == None
    ensures Atoi("12a") == None
    ensures Atoi(" 1") == None
  {
    assert !IsDigit("12a"[2]);
    assert !IsDigit(" 1"[0]);
  }
}

=== FILE: hex.dfy ===
/**
  Lowercase hexadecimal rendering of a byte sequence, as Go's `fmt` verb `%x`
  prints a byte array: two digits per byte, high nibble first, digits `0-9a-f`.
  `Decode` is its inverse and exists to prove that the rendering loses nothing.
 */
module HexFormat {
  import opened Base

  predicate IsLowerHex(c: char) {
    '0' <= c <= '9' || 'a' <= c <= 'f'
  }

  /** The value of one lowercase hex digit. */
  function DigitValue(c: char): (n: int)
    requires IsLowerHex(c)
    ensures 0 <= n < 16
  {
    if c <= '9' then c as int - '0' as int else c as int - 'a' as int + 10
  }

  /** The lowercase hex digit for a nibble; `DigitValue` undoes it. */
  function DigitChar(n: int): (c: char)
    requires 0 <= n < 16
    ensures IsLowerHex(c)
    ensures DigitValue(c) == n
  {
    if n < 10 then ('0' as int + n) as char else ('a' as int + n - 10) as char
  }

  function Encode(bs: Bytes): (s: string)
    ensures |s| == 2 * |bs|
    ensures forall i :: 0 <= i < |s| ==> IsLowerHex(s[i])
  {
    if bs == [] then []
    else [DigitChar(bs[0] as int / 16), DigitChar(bs[0] as int % 16)] + Encode(bs[1..])
  }

  /** Parses an even-length run of lowercase hex digits; anything else is `None`. */
  function Decode(s: string): (r: Option<Bytes>)
    ensures r.Some? ==> 2 * |r.value| == |s|
  {
    if s == [] then Some([])
    else if |s| == 1 || !IsLowerHex(s[0]) || !IsLowerHex(s[1]) then None
    else match Decode(s[2..])
      case None => None
      case Some(rest) => Some([(DigitValue(s[0]) * 16 + DigitValue(s[1])) as byte] + rest)
  }

  lemma {:induction false} DecodeEncode(bs: Bytes)
    ensures Decode(Encode(bs)) == Some(bs)
  {
    if bs != [] {
      var s := Encode(bs);
      assert s[2..] == Encode(bs[1..]);
      DecodeEncode(bs[1..]);
      var b := bs[0] as int;
      assert DigitValue(s[0]) * 16 + DigitValue(s[1]) == b;
      assert [bs[0]] + bs[1..] == bs;
    }
  }

  lemma {:induction false} EncodeDecode(s: string)
    requires Decode(s).Some?
    ensures Encode(Decode(s).value) == s
  {
    if s != [] {
      var rest := Decode(s[2..]).value;
      EncodeDecode(s[2..]);
      var hi, lo := DigitValue(s[0]), DigitValue(s[1]);
      var b := (hi * 16 + lo) as byte;
      assert Decode(s).value == [b] + rest;
      assert ([b] + rest)[1..] == rest;
      assert b as int / 16 == hi && b as int % 16 == lo;
      assert DigitChar(hi) == s[0] && DigitChar(lo) == s[1] by {
        DigitValueInjective(DigitChar(hi), s[0]);
        DigitValueInjective(DigitChar(lo), s[1]);
      }
      assert s == s[..2] + s[2..];
    }
  }

  lemma DigitValueInjective(c: char, d: char)
    requires IsLowerHex(c) && IsLowerHex(d)
    ensures DigitValue(c) == DigitValue(d) ==> c == d
  {
  }

  /** Distinct byte strings never render to the same hex text. */
  lemma EncodeInjective(a: Bytes, b: Bytes)
    ensures Encode(a) == Encode(b) <==> a == b
  {
    if Encode(a) == Encode(b) {
      DecodeEncode(a);
      DecodeEncode(b);
    }
  }
}

=== FILE: image_service.dfy ===
/**
  The cache-aside orchestrator (`ImageService.ProcessImage` in
  internal/service/image_service.go).

  The cache, the original-image storage and the watermarker are the
  `Collaborators` parameter. A call returns its result together with the
  collaborator calls it made, in order, and the service state afterwards: the
  Prometheus counters and the background cache writes it scheduled (the
  goroutine is recorded, not run; `Flush` runs such writes later).
 */
module ImageService {
  import opened Base

  datatype Collaborators = Collaborators(
    cacheGet: string -> Lookup,
    cacheSet: (string, Bytes) -> Option<Error>,
    storageGet: string -> Result<Bytes>,
    addWatermark: (Bytes, string) -> Result<Bytes>)

  /** A collaborator call, with its arguments. */
  datatype Call =
    | CacheGet(key: string)
    | StorageGet(key: string)
    | Watermark(image: Bytes, text: string)

  /** `image_cache_hits_total`, `image_cache_misses_total`, and the number of durations observed. */
  datatype Metrics = Metrics(hits: nat, misses: nat, observed: nat)

  /** A `cache.Set(cacheKey, processedImage)` handed to a background goroutine. */
  datatype PendingWrite = PendingWrite(key: string, data: Bytes)

  datatype State = State(metrics: Metrics, pending: seq<PendingWrite>)

  datatype Outcome = Outcome(result: Result<Bytes>, calls: seq<Call>, state: State)

  const StorageErrorContext: string := "failed to get image from storage"
  const WatermarkErrorContext: string := "failed to add watermark"

  /** The cache key: the image key, a dash, and the watermark text. */
  function CacheKey(imageKey: string, text: string): (k: string)
    ensures |k| == |imageKey| + 1 + |text|
    ensures k[..|imageKey|] == imageKey && k[|imageKey|] == '-' && k[|imageKey| + 1..] == text
  {
    imageKey + "-" + text
  }

  /** Different requests can share a key: the image key may itself contain a dash. */
  lemma CacheKeyNotInjective()
    ensures CacheKey("a-b", "c") == CacheKey("a", "b-c")
    ensures ("a-b", "c") != ("a", "b-c")
  {
  }

  /** For image keys without a dash the key determines the request. */
  lemma CacheKeyInjectiveWithoutDash(id1: string, t1: string, id2: string, t2: string)
    requires '-' !in id1 && '-' !in id2
    ensures CacheKey(id1, t1) == CacheKey(id2, t2) <==> id1 == id2 && t1 == t2
  {
    if CacheKey(id1, t1) == CacheKey(id2, t2) {
      var k := CacheKey(id1, t1);
      assert id1 == k[..|id1|] == id2;
    }
  }

  /**
    `ProcessImage`. Bytes from the cache are returned as they are, whatever
    error came with them. Otherwise it is a miss: fetch the original by image
    key, watermark it, schedule the cache write and return the watermarked bytes.
   */
  function ProcessImage(svc: Collaborators, st: State, imageKey: string, text: string): (out: Outcome)
    // Every call counts exactly one hit or one miss.
    ensures out.state.metrics.hits + out.state.metrics.misses == st.metrics.hits + st.metrics.misses + 1
    ensures |out.calls| >= 1 && out.calls[0] == CacheGet(CacheKey(imageKey, text))
    // Hit: the cached bytes, nothing else called, nothing scheduled.
    ensures svc.cacheGet(CacheKey(imageKey, text)).data.Some? ==>
              && out.result == Success(svc.cacheGet(CacheKey(imageKey, text)).data.value)
              && out.calls == [CacheGet(CacheKey(imageKey, text))]
              && out.state == st.(metrics := st.metrics.(hits := st.metrics.hits + 1))
    // Miss (genuine or failed lookup): storage is asked for the image key, not the cache key.
    ensures svc.cacheGet(CacheKey(imageKey, text)).data.None? ==>
              && out.state.metrics.misses == st.metrics.misses + 1
              && out.state.metrics.hits == st.metrics.hits
              && |out.calls| >= 2 && out.calls[1] == StorageGet(imageKey)
    // Storage failure: wrapped, nothing watermarked, nothing scheduled.
    ensures svc.cacheGet(CacheKey(imageKey, text)).data.None? && svc.storageGet(imageKey).Failure? ==>
              && out.result == Failure(Wrapped(StorageErrorContext, svc.storageGet(imageKey).error))
              && |out.calls| == 2
              && out.state.pending == st.pending
              && out.state.metrics.observed == st.metrics.observed
    // Watermark failure: wrapped, nothing scheduled, no duration observed.
    ensures svc.cacheGet(CacheKey(imageKey, text)).data.None? && svc.storageGet(imageKey).Success? ==>
              && out.calls == [CacheGet(CacheKey(imageKey, text)), StorageGet(imageKey),
                               Watermark(svc.storageGet(imageKey).value, text)]
              && var w := svc.addWatermark(svc.storageGet(imageKey).value, text);
              if w.Failure? then
                && out.result == Failure(Wrapped(WatermarkErrorContext, w.error))
                && out.state.pending == st.pending
                && out.state.metrics.observed == st.metrics.observed
              else
                && out.result == w
                && out.state.pending == st.pending + [PendingWrite(CacheKey(imageKey, text), w.value)]
                && out.state.metrics.observed == st.metrics.observed + 1
    // A write is scheduled only after a successful watermark, and only for the bytes returned.
    ensures out.state.pending != st.pending ==>
              out.result.Success? && out.state.pending == st.pending + [PendingWrite(CacheKey(imageKey, text), out.result.value)]
  {
    var key := CacheKey(imageKey, text);
    var cached := svc.cacheGet(key);
    // A lookup error is only logged; the returned bytes alone decide hit or miss.
    if cached.data.Some? then
      Outcome(Success(cached.data.value), [CacheGet(key)],
              st.(metrics := st.metrics.(hits := st.metrics.hits + 1)))
    else
      var m := st.metrics.(misses := st.metrics.misses + 1);
      match svc.storageGet(imageKey)
      case Failure(e) =>
        Outcome(Failure(Wrapped(StorageErrorContext, e)), [CacheGet(key), StorageGet(imageKey)], st.(metrics := m))
      case Success(original) =>
        var calls := [CacheGet(key), StorageGet(imageKey), Watermark(original, text)];
        match svc.addWatermark(original, text)
        case Failure(e) => Outcome(Failure(Wrapped(WatermarkErrorContext, e)), calls, st.(metrics := m))
        case Success(processed) =>
          Outcome(Success(processed), calls,
                  State(m.(observed := m.observed + 1), st.pending + [PendingWrite(key, processed)]))
  }

  /** What the log gains from running one scheduled write: its error, if it failed. */
  function Logged(svc: Collaborators, w: PendingWrite): seq<Error> {
    match svc.cacheSet(w.key, w.data)
    case Some(e) => [e]
    case None => []
  }

  /** Runs the scheduled writes in order; each failure is only logged, in the same order. */
  function Flush(svc: Collaborators, pending: seq<PendingWrite>): (logged: seq<Error>)
    ensures |logged| <= |pending|
    // Every failed write is logged, and nothing else is.
    ensures forall i :: 0 <= i < |pending| && svc.cacheSet(pending[i].key, pending[i].data).Some? ==>
              svc.cacheSet(pending[i].key, pending[i].data).value in logged
    ensures forall e :: e in logged ==>
              exists i :: 0 <= i < |pending| && svc.cacheSet(pending[i].key, pending[i].data) == Some(e)
    ensures (forall i :: 0 <= i < |pending| ==> svc.cacheSet(pending[i].key, pending[i].data).None?) ==> logged == []
  {
    if pending == [] then []
    else
      var rest := Flush(svc, pending[1..]);
      assert forall i :: 1 <= i < |pending| ==> pending[i] == pending[1..][i - 1];
      Logged(svc, pending[0]) + rest
  }

  /**
    Reference for `Flush`: the errors of the failing writes, in order,
    gathered from the last write backwards.
   */
  function FailedWrites(svc: Collaborators, pending: seq<PendingWrite>): seq<Error>
    decreases |pending|
  {
    if pending == [] then []
    else FailedWrites(svc, pending[..|pending| - 1]) + Logged(svc, pending[|pending| - 1])
  }

  lemma {:induction false} FlushAppend(svc: Collaborators, pending: seq<PendingWrite>, w: PendingWrite)
    ensures Flush(svc, pending + [w]) == Flush(svc, pending) + Logged(svc, w)
    decreases |pending|
  {
    if pending != [] {
      assert (pending + [w])[1..] == pending[1..] + [w];
      FlushAppend(svc, pending[1..], w);
    }
  }

  /** The log is exactly the failing writes' errors, one per failure, in the order the writes ran. */
  lemma {:induction false} FlushLogsFailedWrites(svc: Collaborators, pending: seq<PendingWrite>)
    ensures Flush(svc, pending) == FailedWrites(svc, pending)
    decreases |pending|
  {
    if pending != [] {
      var init := pending[..|pending| - 1];
      assert pending == init + [pending[|pending| - 1]];
      FlushAppend(svc, init, pending[|pending| - 1]);
      FlushLogsFailedWrites(svc, init);
    }
  }

  /** How the background write fares never affects what `ProcessImage` returned or did. */
  lemma CacheSetOutcomeIrrelevant(svc: Collaborators, set': (string, Bytes) -> Option<Error>,
                                  st: State, imageKey: string, text: string)
    ensures ProcessImage(svc.(cacheSet := set'), st, imageKey, text) == ProcessImage(svc, st, imageKey, text)
  {
  }

  /** Every call to `ProcessImage` advances the hit and miss counters by exactly one in total. */
  lemma {:induction false} CountersTrackCalls(svc: Collaborators, st: State, requests: seq<(string, string)>)
    ensures var st' := RunAll(svc, st, requests);
            st'.metrics.hits + st'.metrics.misses == st.metrics.hits + st.metrics.misses + |requests|
            && st'.metrics.hits >= st.metrics.hits && st'.metrics.misses >= st.metrics.misses
    decreases |requests|
  {
    if requests != [] {
      var st1 := ProcessImage(svc, st, requests[0].0, requests[0].1).state;
      CountersTrackCalls(svc, st1, requests[1..]);
    }
  }

  /** The service state after a sequence of requests, each against the same collaborators. */
  function RunAll(svc: Collaborators, st: State, requests: seq<(string, string)>): State
    decreases |requests|
  {
    if requests == [] then st
    else RunAll(svc, ProcessImage(svc, st, requests[0].0, requests[0].1).state, requests[1..])
  }
}

=== FILE: local_cache.dfy ===
/**
  The filesystem-backed TTL cache (`LocalCache` in internal/storage/local_cache.go).

  The filesystem is a value: a set of directories and a map from path to file
  contents with a modification time. Times and the TTL are Go `time.Duration`
  nanoseconds; `now` is an explicit clock. The outcome of each system call that
  can fail for reasons outside the cache (stat, read, remove, write, mkdir) is
  an input, `Faults`; a missing cache directory is not a fault but part of the
  filesystem, and makes a write fail. SHA-1 is the cache's `sha1` parameter: any function
  returning 20 bytes.
 */
module LocalCache {
  import opened Base
  import HexFormat

  /** A SHA-1 sum: exactly 20 bytes. */
  type Digest = d: Bytes | |d| == 20
    witness [0, 0, 0, 0, 0, 0, 0, 0, 0, 0, 0, 0, 0, 0, 0, 0, 0, 0, 0, 0]

  datatype FileInfo = FileInfo(data: Bytes, mtime: int)

  datatype FileSystem = FileSystem(dirs: set<string>, files: map<string, FileInfo>)

  /** A constructed cache: its directory, its TTL, and the digest it names files by. */
  datatype Cache = Cache(path: string, ttl: int, sha1: string -> Digest)

  /**
    How `os.ReadFile` can fail after a successful stat: the open fails and
    nothing is returned, or a read fails after `got` bytes and the bytes read
    so far come back, as a non-nil slice, together with the error.
   */
  datatype ReadFault = OpenFailed(error: Error) | ReadFailed(error: Error, got: nat)

  /** Which system calls fail during one operation, and with what error. */
  datatype Faults = Faults(
    mkdir: Option<Error>,
    stat: Option<Error>,
    read: Option<ReadFault>,
    remove: Option<Error>,
    write: Option<Error>)

  const NoFaults: Faults := Faults(None, None, None, None, None)

  datatype Opened = Opened(cache: Result<Cache>, fs: FileSystem)

  datatype GetOutcome = GetOutcome(reply: Lookup, fs: FileSystem)

  datatype SetOutcome = SetOutcome(err: Option<Error>, fs: FileSystem)

  /** The suffix every cache file carries. */
  const Suffix: string := ".jpg"

  /**
    What `filepath.Join(dir, name)` puts in front of `name`. Lexical cleaning
    of `dir` (dropping `./`, collapsing `//`) is not modelled.
   */
  function DirPrefix(dir: string): string {
    if dir == [] then []
    else if dir[|dir| - 1] == '/' then dir
    else dir + "/"
  }

  /**
    `NewLocalCache`: create the directory (idempotently, as `os.MkdirAll`) and
    return a cache that keeps the given TTL.
   */
  function New(fs: FileSystem, path: string, ttl: int, sha1: string -> Digest, faults: Faults): (r: Opened)
    ensures faults.mkdir.None? ==>
              && r.cache.Success?
              && r.cache.value.path == path
              && r.cache.value.ttl == ttl
              && r.fs.dirs == fs.dirs + {path}
    ensures faults.mkdir.Some? ==>
              && r.cache == Failure(Wrapped("cannot create cache directory " + path, faults.mkdir.value))
              && r.fs == fs
    ensures r.fs.files == fs.files
  {
    match faults.mkdir
    case Some(e) => Opened(Failure(Wrapped("cannot create cache directory " + path, e)), fs)
    case None => Opened(Success(Cache(path, ttl, sha1)), fs.(dirs := fs.dirs + {path}))
  }

  /** Creating the directory a second time changes nothing further. */
  lemma NewIdempotent(fs: FileSystem, path: string, ttl: int, sha1: string -> Digest)
    ensures var once := New(fs, path, ttl, sha1, NoFaults).fs;
            New(once, path, ttl, sha1, NoFaults).fs == once
  {
  }

  /** `getFilePath`: the directory joined with the lowercase hex digest of the key and ".jpg". */
  function FilePath(c: Cache, key: string): (p: string)
    ensures |p| == |DirPrefix(c.path)| + 44
    ensures p[..|DirPrefix(c.path)|] == DirPrefix(c.path)
    ensures p[|p| - 4..] == Suffix
    ensures forall i :: |DirPrefix(c.path)| <= i < |p| - 4 ==> HexFormat.IsLowerHex(p[i])
    // The 40 hex digits decode to the key's digest.
    ensures HexFormat.Decode(p[|DirPrefix(c.path)|..|p| - 4]) == Some(c.sha1(key))
  {
    HexFormat.DecodeEncode(c.sha1(key));
    var p := DirPrefix(c.path) + HexFormat.Encode(c.sha1(key)) + Suffix;
    assert p[|DirPrefix(c.path)|..|p| - 4] == HexFormat.Encode(c.sha1(key));
    p
  }

  /** Two keys share a cache file exactly when their digests coincide. */
  lemma FilePathSameIffSameDigest(c: Cache, k1: string, k2: string)
    ensures FilePath(c, k1) == FilePath(c, k2) <==> c.sha1(k1) == c.sha1(k2)
  {
    var pre := DirPrefix(c.path);
    var h1, h2 := HexFormat.Encode(c.sha1(k1)), HexFormat.Encode(c.sha1(k2));
    if FilePath(c, k1) == FilePath(c, k2) {
      assert h1 == FilePath(c, k1)[|pre|..|pre| + 40];
      assert h2 == FilePath(c, k2)[|pre|..|pre| + 40];
      HexFormat.EncodeInjective(c.sha1(k1), c.sha1(k2));
    }
  }

  /** Whether a file last modified at `mtime` is stale at `now`: strictly older than the TTL. */
  predicate Expired(c: Cache, mtime: int, now: int) {
    now - mtime > c.ttl
  }

  /** What `os.ReadFile` returns for a file holding `data`, given how the read fares. */
  function ReadFile(data: Bytes, fault: Option<ReadFault>): Lookup {
    match fault
    case None => Lookup(Some(data), None)
    case Some(OpenFailed(e)) => Lookup(None, Some(e))
    case Some(ReadFailed(e, got)) => Lookup(Some(data[..if got < |data| then got else |data|]), Some(e))
  }

  /**
    `Get`: stat the key's file. A stat failure other than "does not exist" is
    returned; an absent file is a miss; a stale file is a miss and is removed
    if the removal succeeds; a fresh file is read and whatever `os.ReadFile`
    returns is passed on, partial bytes and error together.
   */
  function Get(c: Cache, fs: FileSystem, now: int, key: string, faults: Faults): (r: GetOutcome)
    ensures faults.stat.Some? ==> r == GetOutcome(Lookup(None, faults.stat), fs)
    ensures faults.stat.None? && FilePath(c, key) !in fs.files ==> r == GetOutcome(Miss, fs)
    ensures faults.stat.None? && FilePath(c, key) in fs.files ==>
              var f := fs.files[FilePath(c, key)];
              if Expired(c, f.mtime, now) then
                && r.reply == Miss
                && r.fs.dirs == fs.dirs
                && r.fs.files == if faults.remove.None? then fs.files - {FilePath(c, key)} else fs.files
              else
                && r.fs == fs
                && r.reply == ReadFile(f.data, faults.read)
    // Bytes come back only from a fresh file at the key's path: all of it, or
    // the prefix read before a failed read, which comes with that failure.
    ensures r.reply.data.Some? ==>
              && FilePath(c, key) in fs.files
              && !Expired(c, fs.files[FilePath(c, key)].mtime, now)
              && r.reply.data.value <= fs.files[FilePath(c, key)].data
              && (r.reply.err.None? ==> r.reply.data.value == fs.files[FilePath(c, key)].data)
    ensures r.reply.data.Some? && r.reply.err.Some? ==> faults.read.Some? && faults.read.value.ReadFailed?
    // Only the key's own file can change.
    ensures r.fs.dirs == fs.dirs
    ensures r.fs.files - {FilePath(c, key)} == fs.files - {FilePath(c, key)}
    ensures r.fs.files.Keys <= fs.files.Keys
  {
    var p := FilePath(c, key);
    if faults.stat.Some? then GetOutcome(Lookup(None, faults.stat), fs)
    else if p !in fs.files then GetOutcome(Miss, fs)
    else if Expired(c, fs.files[p].mtime, now) then
      var fs' := if faults.remove.None? then fs.(files := fs.files - {p}) else fs;
      GetOutcome(Miss, fs')
    else GetOutcome(ReadFile(fs.files[p].data, faults.read), fs)
  }

  /** The error `os.WriteFile` reports when the file's directory does not exist. */
  function NoSuchDirectory(p: string): Error {
    Error("open " + p + ": no such file or directory")
  }

  /**
    `Set`: write the bytes to the key's file, stamped `now`. The write fails,
    and changes nothing, if it is faulted or the cache directory is missing.
   */
  function Set(c: Cache, fs: FileSystem, now: int, key: string, data: Bytes, faults: Faults): (r: SetOutcome)
    ensures faults.write.Some? ==> r.err == faults.write
    ensures faults.write.None? && c.path !in fs.dirs ==> r.err == Some(NoSuchDirectory(FilePath(c, key)))
    ensures r.err.None? <==> faults.write.None? && c.path in fs.dirs
    ensures r.err.Some? ==> r.fs == fs
    ensures r.err.None? ==>
              && FilePath(c, key) in r.fs.files
              && r.fs.files[FilePath(c, key)] == FileInfo(data, now)
    ensures r.fs.dirs == fs.dirs
    ensures r.fs.files - {FilePath(c, key)} == fs.files - {FilePath(c, key)}
  {
    var p := FilePath(c, key);
    if faults.write.Some? then SetOutcome(faults.write, fs)
    else if c.path !in fs.dirs then SetOutcome(Some(NoSuchDirectory(p)), fs)
    else SetOutcome(None, fs.(files := fs.files[p := FileInfo(data, now)]))
  }

  /** A cache that `New` returned can be written to at once. */
  lemma NewEnablesSet(fs: FileSystem, path: string, ttl: int, sha1: string -> Digest,
                      now: int, key: string, data: Bytes)
    ensures var o := New(fs, path, ttl, sha1, NoFaults);
            o.cache.Success? && Set(o.cache.value, o.fs, now, key, data, NoFaults).err.None?
  {
  }

  /** Round trip: what `Set` stores, `Get` returns until the TTL has passed, boundary included. */
  lemma SetThenGet(c: Cache, fs: FileSystem, t: int, now: int, key: string, data: Bytes)
    requires c.path in fs.dirs
    requires t <= now <= t + c.ttl
    ensures var fs' := Set(c, fs, t, key, data, NoFaults).fs;
            Get(c, fs', now, key, NoFaults) == GetOutcome(Lookup(Some(data), None), fs')
  {
  }

  /** Once the TTL has strictly passed, the entry is a miss and its file is gone. */
  lemma SetThenGetExpired(c: Cache, fs: FileSystem, t: int, now: int, key: string, data: Bytes)
    requires c.path in fs.dirs
    requires now > t + c.ttl
    ensures var fs' := Set(c, fs, t, key, data, NoFaults).fs;
            var r := Get(c, fs', now, key, NoFaults);
            r.reply == Miss && FilePath(c, key) !in r.fs.files
  {
  }

  /** Last write wins: a second `Set` of the same key replaces the first. */
  lemma LastWriteWins(c: Cache, fs: FileSystem, t1: int, t2: int, now: int, key: string, d1: Bytes, d2: Bytes)
    requires c.path in fs.dirs
    requires t2 <= now <= t2 + c.ttl
    ensures var fs1 := Set(c, fs, t1, key, d1, NoFaults).fs;
            var fs2 := Set(c, fs1, t2, key, d2, NoFaults).fs;
            Get(c, fs2, now, key, NoFaults).reply == Lookup(Some(d2), None)
  {
  }

  /**
    Writing a key whose digest differs leaves another key's lookup exactly as
    it was: the same reply, and the same effect on the filesystem (the write
    and the lookup commute).
   */
  lemma SetOtherKeyInvisible(c: Cache, fs: FileSystem, t: int, now: int, key: string, other: string,
                             data: Bytes, faults: Faults)
    requires c.sha1(key) != c.sha1(other)
    ensures var fs' := Set(c, fs, t, other, data, NoFaults).fs;
            && Get(c, fs', now, key, faults).reply == Get(c, fs, now, key, faults).reply
            && Get(c, fs', now, key, faults).fs == Set(c, Get(c, fs, now, key, faults).fs, t, other, data, NoFaults).fs
  {
    FilePathSameIffSameDigest(c, key, other);
    var p := FilePath(c, key);
    var fs' := Set(c, fs, t, other, data, NoFaults).fs;
    assert p in fs'.files <==> p in fs.files;
    assert p in fs.files ==> fs'.files[p] == fs.files[p];
  }

  /** A stale read returns the same miss whether or not the removal of the stale file fails. */
  lemma ExpiredReplyIgnoresRemoval(c: Cache, fs: FileSystem, now: int, key: string, faults: Faults, removal: Option<Error>)
    requires faults.stat.None?
    requires FilePath(c, key) in fs.files && Expired(c, fs.files[FilePath(c, key)].mtime, now)
    ensures Get(c, fs, now, key, faults).reply == Get(c, fs, now, key, faults.(remove := removal)).reply == Miss
  {
  }
}

=== FILE: watermark.dfy ===
/**
  The control logic of the watermark processor (internal/processor/watermark.go):
  header sniffing, routing to a decoder and an encoder, and batch aggregation.
  Decoding, drawing and encoding are the `Codecs` parameter; the image type `I`
  is left abstract.
 */
module Watermark {
  import opened Base

  /** `WatermarkOptions`. `weight` is only ever handed to the text renderer. */
  datatype Options = Options(weight: real, dimensions: string, quality: int)

  /**
    The image library, as far as the processor uses it: the three decoders of
    the format switch, the copy-onto-RGBA plus text drawing, and the encoders.
   */
  datatype Codecs<!I> = Codecs(
    decodeJpeg: Bytes -> Result<I>,
    decodePng: Bytes -> Result<I>,
    decodeAny: Bytes -> Result<I>,
    render: (I, Options) -> Result<I>,
    encodeJpeg: (I, int) -> Result<Bytes>,
    encodePng: I -> Result<Bytes>)

  /** The first four octets of the PNG signature (section 5.2 of the PNG specification, ISO/IEC 15948). */
  const PngMagic: Bytes := [0x89, 0x50, 0x4E, 0x47]

  predicate StartsWithPngMagic(data: Bytes) {
    |data| >= 4 && data[..4] == PngMagic
  }

  /**
    `detectImageFormat`. The JPEG test (the SOI marker FF D8 of Table B.1 of
    ITU-T T.81, then FF) only confirms the default, so the answer is "png"
    exactly for the PNG signature prefix and "jpeg" for everything else.
   */
  function DetectImageFormat(data: Bytes): (f: string)
    ensures f == "jpeg" || f == "png"
    ensures f == "png" <==> StartsWithPngMagic(data)
  {
    if |data| < 4 then "jpeg"
    else if data[0] == 0xFF && data[1] == 0xD8 && data[2] == 0xFF then "jpeg"
    else if data[0] == 0x89 && data[1] == 0x50 && data[2] == 0x4E && data[3] == 0x47 then "png"
    else "jpeg"
  }

  /** Only the first four bytes matter. */
  lemma DetectUsesFourBytes(a: Bytes, b: Bytes)
    requires |a| >= 4 && |b| >= 4 && a[..4] == b[..4]
    ensures DetectImageFormat(a) == DetectImageFormat(b)
  {
  }

  /** Inputs shorter than four bytes are "jpeg", even a complete FF D8 FF. */
  lemma DetectShortIsJpeg(data: Bytes)
    requires |data| < 4
    ensures DetectImageFormat(data) == "jpeg"
  {
  }

  /** Decoding step of `AddWatermark`: the format switch with its error labels. */
  function DecodeAs<I>(c: Codecs<I>, format: string, data: Bytes): Result<I> {
    if format == "jpeg" || format == "jpg" then
      match c.decodeJpeg(data)
      case Failure(e) => Failure(Wrapped("failed to decode jpeg", e))
      case Success(img) => Success(img)
    else if format == "png" then
      match c.decodePng(data)
      case Failure(e) => Failure(Wrapped("failed to decode png", e))
      case Success(img) => Success(img)
    else
      match c.decodeAny(data)
      case Failure(e) => Failure(Wrapped("failed to decode image", e))
      case Success(img) => Success(img)
  }

  /** Encoding step of `AddWatermark`: PNG for "png", JPEG at the requested quality otherwise. */
  function EncodeAs<I>(c: Codecs<I>, format: string, img: I, quality: int): Result<Bytes> {
    if format == "jpeg" || format == "jpg" then
      match c.encodeJpeg(img, quality)
      case Failure(e) => Failure(Wrapped("failed to encode jpeg", e))
      case Success(b) => Success(b)
    else if format == "png" then
      match c.encodePng(img)
      case Failure(e) => Failure(Wrapped("failed to encode png", e))
      case Success(b) => Success(b)
    else
      match c.encodeJpeg(img, quality)
      case Failure(e) => Failure(Wrapped("failed to encode image", e))
      case Success(b) => Success(b)
  }

  /**
    `AddWatermark`: sniff, decode, draw, encode. The generic decoder's branch
    re-labels the format as "jpeg", as the source does.
   */
  function AddWatermark<I>(c: Codecs<I>, data: Bytes, opts: Options): (r: Result<Bytes>)
    // A decoder failure stops everything, labelled by the sniffed format.
    ensures DetectImageFormat(data) == "png" && c.decodePng(data).Failure? ==>
              r == Failure(Wrapped("failed to decode png", c.decodePng(data).error))
    ensures DetectImageFormat(data) == "jpeg" && c.decodeJpeg(data).Failure? ==>
              r == Failure(Wrapped("failed to decode jpeg", c.decodeJpeg(data).error))
    // A decoded image whose drawing fails is reported as such.
    ensures var dec := if DetectImageFormat(data) == "png" then c.decodePng(data) else c.decodeJpeg(data);
            dec.Success? && c.render(dec.value, opts).Failure? ==>
              r == Failure(Wrapped("failed to draw text", c.render(dec.value, opts).error))
    // Once decoding and drawing succeed, the outcome is the sniffed format's
    // encoder's: PNG for PNG input, JPEG at the requested quality otherwise.
    ensures DetectImageFormat(data) == "png" && c.decodePng(data).Success? &&
            c.render(c.decodePng(data).value, opts).Success? ==>
              match c.encodePng(c.render(c.decodePng(data).value, opts).value)
              case Success(b) => r == Success(b)
              case Failure(e) => r == Failure(Wrapped("failed to encode png", e))
    ensures DetectImageFormat(data) == "jpeg" && c.decodeJpeg(data).Success? &&
            c.render(c.decodeJpeg(data).value, opts).Success? ==>
              match c.encodeJpeg(c.render(c.decodeJpeg(data).value, opts).value, opts.quality)
              case Success(b) => r == Success(b)
              case Failure(e) => r == Failure(Wrapped("failed to encode jpeg", e))
  {
    var format := DetectImageFormat(data);
    var img :- DecodeAs(c, format, data);
    var format' := if format == "jpeg" || format == "jpg" || format == "png" then format else "jpeg";
    var drawn :- match c.render(img, opts)
      case Failure(e) => Failure(Wrapped("failed to draw text", e))
      case Success(d) => Success(d);
    EncodeAs(c, format', drawn, opts.quality)
  }

  /** The generic-decode fallback is unreachable: replacing it changes no result. */
  lemma GenericDecoderUnused<I>(c: Codecs<I>, decodeAny: Bytes -> Result<I>, data: Bytes, opts: Options)
    ensures AddWatermark(c.(decodeAny := decodeAny), data, opts) == AddWatermark(c, data, opts)
  {
  }

  /** Watermarking succeeds exactly when decoding, drawing and encoding all do. */
  lemma AddWatermarkSucceedsIff<I>(c: Codecs<I>, data: Bytes, opts: Options)
    ensures var png := DetectImageFormat(data) == "png";
            var dec := if png then c.decodePng(data) else c.decodeJpeg(data);
            AddWatermark(c, data, opts).Success? <==>
              && dec.Success?
              && c.render(dec.value, opts).Success?
              && (if png then c.encodePng(c.render(dec.value, opts).value)
                  else c.encodeJpeg(c.render(dec.value, opts).value, opts.quality)).Success?
  {
  }

  /**
    `ProcessBatch`: reject mismatched lengths; otherwise watermark every item
    (one independent task per index, here in index order) and report the error
    of the lowest failing index, or all results in input order.
   */
  method ProcessBatch<I>(c: Codecs<I>, images: seq<Bytes>, opts: seq<Options>) returns (r: Result<seq<Bytes>>)
    ensures |images| != |opts| ==> r == Failure(Error("images and options length mismatch"))
    ensures |images| == |opts| ==>
              (r.Success? <==> forall i :: 0 <= i < |images| ==> AddWatermark(c, images[i], opts[i]).Success?)
    ensures |images| == |opts| && r.Success? ==>
              && |r.value| == |images|
              && forall i :: 0 <= i < |images| ==> AddWatermark(c, images[i], opts[i]) == Success(r.value[i])
    ensures |images| == |opts| && r.Failure? ==>
              exists i :: 0 <= i < |images|
                && AddWatermark(c, images[i], opts[i]) == Failure(r.error)
                && forall j :: 0 <= j < i ==> AddWatermark(c, images[j], opts[j]).Success?
  {
    if |images| != |opts| {
      return Failure(Error("images and options length mismatch"));
    }
    var outcomes: seq<Result<Bytes>> := [];
    var i := 0;
    while i < |images|
      invariant 0 <= i <= |images|
      invariant |outcomes| == i
      invariant forall k :: 0 <= k < i ==> outcomes[k] == AddWatermark(c, images[k], opts[k])
    {
      outcomes := outcomes + [AddWatermark(c, images[i], opts[i])];
      i := i + 1;
    }
    var results: seq<Bytes> := [];
    i := 0;
    while i < |outcomes|
      invariant 0 <= i <= |outcomes|
      invariant |results| == i
      invariant forall k :: 0 <= k < i ==> outcomes[k] == Success(results[k])
    {
      if outcomes[i].Failure? {
        return Failure(outcomes[i].error);
      }
      results := results + [outcomes[i].value];
      i := i + 1;
    }
    return Success(results);
  }
}
